=== FILE: README.md ===
# shiftSync core, modelled in Dafny

shiftSync is a personal shift calendar. A user defines named shift types with an
hour count, then puts one shift type (or none) on each day. This project models
the parts of the application that hold its rules:

- **`assignShift`** (`Assignments.AssignmentStore.AssignShift`). It reconciles the stored
  assignment of one (user, date) with a requested shift type and the "is a swap"
  flag. A null shift type deletes the row. Otherwise the function
  `Assignments.Reconciled` computes the new row: it carries over the recorded original
  shift type, captures the first pre-swap shift, and clears an original that
  equals the new shift. The store is a map keyed by (userId, date), so it holds at
  most one row per key.
- **`saveShiftTypes`** (`ShiftTypes.ShiftTypeRegistry.SaveShiftTypes`). It validates the
  whole batch. It then deletes the user's shift types whose names the batch does
  not hold, upserts each entry in order by (userId, name), and marks the user
  onboarded.
- **`getMonthAssignments`** (`Assignments.AssignmentStore.MonthAssignments`). It reads
  one user's rows from day 1 through "day 0 of the next month". `Dates.NewDate`
  models JavaScript's `new Date(year, monthIndex, day)` on calendar days for this.
- **The calendar component** (`CalendarView`). This covers the Monday-first padding,
  the month's day list, the local list update after the server action, the total
  of hours, the "changed" mark and the popover state (`CalendarState`).
- **`getInitials`** (`UserDropdown.Initials`). It produces the avatar fallback.

Dates are calendar days, `Date(year, month, day)` with a 1-based month.
`Dates.DayNumber` counts days from 1970-01-01, and `Dates.Weekday` numbers weekdays
like `getDay`. `Dates.MonthEndIsFollowedByNextMonth` proves that this day count
agrees with `Dates.DaysInMonth`, leap years included.

Identity is an explicit `session` parameter. The server action's result is a
`Records.Result`: either `Success` or `Failure` with `NotAuthenticated`,
`InvalidData` or `StoreFailure`.

### Behaviour of the code worth knowing

- Deleting with a null shift type returns the deleted row, with its relations.
  It returns null only when no row existed, because `.catch(() => null)` turns
  the store's "not found" error into null.
- An omitted note (`observations` undefined) leaves the stored note unchanged on
  update, and is stored as null on create. This is how Prisma treats an
  undefined field. An update does not overwrite the note with nothing.
- `assignShift` does not check that the shift type belongs to the user. A shift
  type id that the table does not hold makes the upsert fail its foreign key,
  and the action reports 'Failed to assign shift'.
- `getMonthAssignments` checks no session.
- "No original recorded" is JavaScript falsiness, so an empty-string original
  counts as absent. Stored ids are cuids and never empty, so
  `CalendarView.ChangedMarkIffOriginal` shows the two readings agree on stored rows.

## Model

| member | source | states |
|---|---|---|
| Assignments.Rejection | src/lib/actions.ts:83-91 | Definition of the rejection order, whose effect `AssignShift` states: a missing session, or one for another user, is `NotAuthenticated`. With the right user, a schema failure is `InvalidData`. Otherwise the request passes and the session is that user. |
| Assignments.ValidRequest | src/lib/actions.ts:73-79 | The request schema: an ISO date, a cuid user id, and a shift type id that is a cuid or null. |
| Assignments.Reconciled | src/lib/actions.ts:120-150 | The new row has the requested shift. Its original is never equal to that shift. An original comes only from the previous row. A swap away from a row with no original records that row's shift. A recorded original is never overwritten, only cleared by going back to it. Without the swap flag the original is carried over or cleared. An omitted note keeps the stored note on update. |
| Assignments.AssignSameShiftTwice | src/lib/actions.ts:120-155 | Assigning the same shift twice without the swap flag leaves the store as one assignment does. |
| Assignments.UnassignThenAssign | src/lib/actions.ts:97-130 | After the row is deleted, a new assignment to that day has no original. |
| Assignments.SwapScenario | src/lib/actions.ts:120-130 | Start from baseline A. A swap to B records A. A later swap to C keeps A. A swap back to A clears the original. |
| Assignments.AssignmentStore.Resolve | src/lib/actions.ts:151-154 | Definition of `include`, as `AssignShift` and `MonthAssignments` return it: the row together with the shift type its id names, and the shift type its original id names when one is recorded, null otherwise. |
| Assignments.AssignmentStore.AssignShift | src/lib/actions.ts:81-165 | A rejected request, or an unknown shift type, returns the error and changes nothing. A null target removes only that key's row and returns the old row or null. Otherwise only that key changes, to the `Reconciled` row, which is returned. The store stays well formed: one row per key, valid ids, and original ≠ shift. |
| Assignments.AssignmentStore.MonthAssignments | src/lib/actions.ts:167-191 | The result holds exactly the user's rows dated in the given date's month, each with its relations included. |
| Dates.NewDate | src/lib/actions.ts:169-170 | `new Date(y, monthIndex, day)` is a valid day, `day - 1` days after the 1st of the carried month. Day 0 is the day before the 1st. |
| Dates.StartOfMonth | src/lib/actions.ts:169 | Day 1 of month index `m - 1` is the 1st of month `m`. |
| Dates.EndOfMonth | src/lib/actions.ts:170 | Day 0 of the next month index is the last day of the month. December ends on the 31st of the same year. February ends on the 28th, or the 29th in a leap year. |
| Dates.MonthEndIsFollowedByNextMonth | src/lib/actions.ts:170 | The day count and `DaysInMonth` agree: the day after a month's last day is the 1st of the next month, across December and across February in every year. |
| Dates.CountingYearLength | src/lib/actions.ts:170 | The year from March 1 of the year before through the end of February has 366 days exactly in a leap year (divisible by 4, not by 100 unless by 400), and 365 otherwise. |
| Dates.Weekday | src/components/calendar/calendar-view.tsx:57 | `getDay`: a weekday number in 0..6. |
| Dates.NextDay | src/components/calendar/calendar-view.tsx:57 | The successor step that `WeekdayLikeGetDay` uses to fix `getDay`: the day after a valid day is a valid, later day, one further on in the day count, across month and year ends. |
| Dates.WeekdayLikeGetDay | src/components/calendar/calendar-view.tsx:57 | 1970-01-01 is a Thursday (4), and every next day moves one weekday on, Saturday wrapping to Sunday, which fixes `getDay` on every day. |
| Dates.InMonthRange | src/lib/actions.ts:172-179 | A valid day lies between a month's first and last day exactly when it belongs to that month. Both ends are included; the adjacent months are excluded. |
| ShiftTypes.ValidInput | src/lib/actions.ts:8-12 | The entry schema: a non-empty name, and hours that are an integer of at least 0. |
| ShiftTypes.ValidBatch | src/lib/actions.ts:14 | The batch schema: every entry passes the entry schema. |
| ShiftTypes.StoredHours | src/lib/actions.ts:11 | A validated hour count is stored as the same non-negative integer. |
| ShiftTypes.LastHours | src/lib/actions.ts:41-56 | The hours the in-order upserts leave for a name of the batch: those of the latest upsert of that name. |
| ShiftTypes.LastEntryWins | src/lib/actions.ts:41-56 | When names repeat, the hours left for a name are those of its last entry in the batch. |
| ShiftTypes.LastHoursStep | src/lib/actions.ts:41-56 | Upserting the next entry gives its name that entry's hours and leaves every other name's hours as they were. |
| ShiftTypes.UpsertStep | src/lib/actions.ts:41-56 | One upsert extends the processed prefix: the delete result plus the upserted names, with their last hours. |
| ShiftTypes.ShiftTypeRegistry.SaveShiftTypes | src/lib/actions.ts:16-71 | No session gives `NotAuthenticated`; any invalid entry gives `InvalidData`; an error changes nothing. It succeeds exactly when the session and the whole batch are valid. On success the user's names are exactly the submitted names, each with its last entry's hours, the user is onboarded, and other users' rows are untouched. |
| CalendarView.MondayFirstColumn | src/components/calendar/calendar-view.tsx:167 | The grid column of a day under the Monday-first header is in 0..6. |
| CalendarView.PaddingDays | src/components/calendar/calendar-view.tsx:57-58 | The padding is in 0..6 and is the Monday-first column of the 1st. |
| CalendarView.GridColumnIsWeekday | src/components/calendar/calendar-view.tsx:173-177 | After the padding, every day of the month lands in its own weekday's column. |
| CalendarView.MonthDays | src/components/calendar/calendar-view.tsx:53-55 | The list has one entry per day of the month, from the 1st to the last, strictly in order. Every valid day of that month appears. |
| CalendarView.OnDay | src/components/calendar/calendar-view.tsx:85 | `isSameDay`: the row is dated on that calendar day. |
| CalendarView.WithoutDay | src/components/calendar/calendar-view.tsx:85 | The filter keeps exactly the entries of other days. |
| CalendarView.DayEntriesAppend | src/components/calendar/calendar-view.tsx:89 | The entries of a day in a concatenation are those of the first part, then those of the second. |
| CalendarView.DayEntriesWithoutDay | src/components/calendar/calendar-view.tsx:84-88 | After the filter the day has no entry, and every other day's entries are as before. |
| CalendarView.ReplaceDay | src/components/calendar/calendar-view.tsx:87-90 | The day's only entry is the returned row. The list holds that row and the other days' entries. |
| CalendarView.ReplaceDayKeepsOtherDays | src/components/calendar/calendar-view.tsx:87-90 | Replacing one day's entries leaves every other day's entries as they were. |
| CalendarView.TotalHours | src/components/calendar/calendar-view.tsx:118 | With non-negative hours the total is non-negative. |
| CalendarView.TotalHoursAppend | src/components/calendar/calendar-view.tsx:118 | The total of a concatenation is the sum of the totals. |
| CalendarView.TotalHoursByDay | src/components/calendar/calendar-view.tsx:118 | The total is one day's hours plus the hours of all other days. |
| CalendarView.TotalHoursAfterReplace | src/components/calendar/calendar-view.tsx:86-118 | After a day's entries are replaced, the total loses their hours and gains the new row's. |
| CalendarView.FindDay | src/components/calendar/calendar-view.tsx:142 | `find` returns the first listed entry of the day, or nothing when the day has none. |
| CalendarView.IsShiftChanged | src/components/calendar/calendar-view.tsx:178-179 | The day's entry shows the "changed" mark when it records a truthy original id that differs from its shift id. |
| CalendarView.ChangedMarkIffOriginal | src/components/calendar/calendar-view.tsx:179 | For a row the store can hold, the "changed" mark shows exactly when an original is recorded. That is also the swap flag that opening the popover sets. |
| CalendarView.CalendarState.constructor | src/components/calendar/calendar-view.tsx:43-48 | The component starts with the initial list, not loading, popover closed, swap flag false and note ''. |
| CalendarView.CalendarState.HandleAssignShift | src/components/calendar/calendar-view.tsx:60-108 | The action is called with the component's flag and note. It fails exactly when the server action rejects. On an error, the list and the store are unchanged. After an unassign the store has lost that day's row and the day has no entry. After an assign the store holds the `Reconciled` row for that day, computed with the component's flag and note, and the returned row is that row with its relations; it becomes the day's only entry. Other days are unchanged. The flag, the note, the popover and the loading state are always reset. |
| CalendarView.CalendarState.HandlePopoverOpenChange | src/components/calendar/calendar-view.tsx:139-146 | Opening a day sets the open popover to it, the note to its entry's note or '', and the swap flag to whether that entry records an original. Closing changes only the open popover. |
| UserDropdown.Split | src/components/auth/user-dropdown.tsx:17 | `split(' ')` gives at least one piece, and no piece contains the separator. |
| UserDropdown.JoinSplit | src/components/auth/user-dropdown.tsx:17 | Joining the pieces with the separator gives the name back. |
| UserDropdown.Heads | src/components/auth/user-dropdown.tsx:17 | `.map(n => n[0]).join('')`: the first character of each piece, an empty piece adding nothing. |
| UserDropdown.HeadsAreWordStarts | src/components/auth/user-dropdown.tsx:17 | The pieces' first characters are exactly the word starts, in order. Empty pieces from repeated spaces contribute nothing. |
| UserDropdown.NoSpaceNoLaterStart | src/components/auth/user-dropdown.tsx:17 | A name without spaces has only one word start. |
| UserDropdown.SpacesHaveNoStart | src/components/auth/user-dropdown.tsx:17 | A name of spaces only has no word start. |
| UserDropdown.Take2 | src/components/auth/user-dropdown.tsx:17 | `substring(0, 2)` is a prefix of the string: the whole string when it is shorter than two characters, its first two otherwise. |
| UserDropdown.UpperChar | src/components/auth/user-dropdown.tsx:17 | Definition of `toUpperCase` on one character: the lower-case letters of Basic Latin and Latin-1 become their capitals ('a'..'z' and 'à'..'þ' except '÷' move up by 32, 'µ' becomes 'Μ', 'ÿ' becomes 'Ÿ'). Every other character is unchanged. |
| UserDropdown.UpperCaseIsIdempotent | src/components/auth/user-dropdown.tsx:17 | `toUpperCase` is idempotent: upper-casing an upper-cased string changes nothing. |
| UserDropdown.InitialsAreUpperCase | src/components/auth/user-dropdown.tsx:15-18 | The initials, including the 'U' fallback, are already upper case. |
| UserDropdown.Initials | src/components/auth/user-dropdown.tsx:15-18 | A missing or empty name gives 'U'. The result has at most two characters. Otherwise it is the upper-cased first two word starts. A one-word name gives its upper-cased first letter. A name of spaces only gives ''. |

## Left out

- Authentication: the session is a parameter. Prisma is modelled as in-memory maps. `revalidatePath`, `router.refresh`, toasts and `console.error` are left out because they are foreign calls.
- Transactions are not modelled. `saveShiftTypes` is one all-or-nothing method. Its store-failure path (the catch at src/lib/actions.ts:64-67) is not modelled, and the success path assumes the user row exists.
- Store failures in `assignShift` other than an unknown shift type (a foreign-key violation) are not modelled: connection errors, for example. The component's own catch for a thrown call (calendar-view.tsx:95-101) is not modelled either; only its `finally` resets are.
- Concurrent writes to the same (user, date) are not modelled. The code lets the last write win.
- Shift-type ids are generated by the database and not modelled. The registry keys shift types by (user, name). The store's `catalog` is the shift-type table seen by id, as a fixed field, and the two are not linked. Foreign-key effects of deleting a shift type that is still assigned are not modelled, because the database schema is not part of this model.
- The zod schemas are modelled as predicates: `IsCuid` (a 'c' or 'C', then eight or more characters that are neither JavaScript `\s` whitespace nor '-'), `IsIsoDate` (year 0..9999 and a real day), and hours that are an integer ≥ 0. Coercion of non-number input, NaN and floating-point hours are not modelled.
- JavaScript `Date` handling is not modelled: time of day, `setHours(12)`, `toISOString().split('T')[0]` and time zones. Dates are calendar days, so `isSameDay` is equality of days.
- Assignments.AssignmentStore.MonthAssignments: `assignShift` stores `new Date('YYYY-MM-DD')`, which is midnight UTC (src/lib/actions.ts:146), while the month read runs from noon local time on the 1st to noon local time on the last day (src/lib/actions.ts:169-170). If the date column keeps the time of day, a row for the 1st can lie before the start of the range and be missed, depending on the server's time zone. The database schema is not part of this model. The model compares calendar days, and its "exactly the month's rows" rests on that.
- Dates.NewDate: only day-of-month arguments 0..28 are modelled; the source passes 0 and 1. JavaScript's mapping of years 0..99 to 1900..1999 is not modelled.
- UserDropdown.UpperChar: only the Basic Latin and Latin-1 lower-case letters are upper-cased; lower-case letters of other blocks are left unchanged. Characters whose upper case has several characters (ß becomes SS) are left unchanged. Under full Unicode upper-casing, the result of `getInitials` can exceed two characters.
- JavaScript strings are UTF-16. Here a character is a Unicode scalar value, so `n[0]` on a surrogate pair is not modelled, and `IsCuid` counts characters where the cuid pattern counts UTF-16 code units: "c" followed by four characters outside the Basic Multilingual Plane passes the pattern but not `IsCuid`.
- JSX rendering is not modelled: `getShiftColorClasses`, the grid and popover markup, month navigation, and the effect that re-fetches the month.

=== FILE: assignments.dfy ===
/**
 * The assignment server actions: `assignShift`, which reconciles the stored
 * assignment of one (user, date) with a requested shift type and the swap flag,
 * and `getMonthAssignments`, which reads one user's assignments of one month.
 */
module Assignments {
  import opened Wrappers
  import opened Dates
  import opened Records

  /** The unique key of an assignment row. */
  type Key = (UserId, Date)

  /** The arguments of `assignShift`; an omitted `isChange` is false, an omitted note is None. */
  datatype AssignRequest = AssignRequest(
    date: Date,
    shiftTypeId: Option<ShiftTypeId>,
    userId: UserId,
    isChange: bool,
    observations: Option<string>)

  /** The request schema: an ISO date, a cuid user id and a cuid or null shift type id. */
  predicate ValidRequest(req: AssignRequest) {
    && IsIsoDate(req.date)
    && IsCuid(req.userId)
    && (req.shiftTypeId.Some? ==> IsCuid(req.shiftTypeId.value))
  }

  /**
   * Why `assignShift` refuses a request before touching the store, if it does:
   * a missing session or one for another user first, then the schema.
   */
  function Rejection(session: Option<UserId>, req: AssignRequest): Option<ActionError> {
    if !Truthy(session) || session.value != req.userId then Some(NotAuthenticated)
    else if !ValidRequest(req) then Some(InvalidData)
    else None
  }

  /** `findUnique` by (userId, date). */
  function Lookup(records: map<Key, Assignment>, key: Key): Option<Assignment> {
    if key in records then Some(records[key]) else None
  }

  /**
   * The row `assignShift` stores for (userId, date) when it assigns `target`,
   * given the row stored there before, if any. The recorded original carries
   * over; a swap away from the current shift records that shift when no
   * original is recorded yet; an original equal to the new shift is cleared.
   * An omitted note keeps the stored one on update and is null on create.
   */
  function Reconciled(existing: Option<Assignment>, userId: UserId, date: Date, target: ShiftTypeId,
                      isChange: bool, observations: Option<string>): (r: Assignment)
    ensures r.userId == userId && r.date == date && r.shiftTypeId == target
    // the recorded original is never the current shift
    ensures r.originalShiftTypeId != Some(target)
    // an original comes from the previous row: its original, or its shift in a swap
    ensures r.originalShiftTypeId.Some? ==>
              existing.Some? && (r.originalShiftTypeId == existing.value.originalShiftTypeId
                                 || (isChange && r.originalShiftTypeId == Some(existing.value.shiftTypeId)))
    // a swap away from a row without an original records that row's shift
    ensures (isChange && existing.Some? && existing.value.shiftTypeId != target && !Truthy(existing.value.originalShiftTypeId))
              ==> r.originalShiftTypeId == Some(existing.value.shiftTypeId)
    // a recorded original is never overwritten, only cleared by going back to it
    ensures (existing.Some? && Truthy(existing.value.originalShiftTypeId))
              ==> r.originalShiftTypeId == if existing.value.originalShiftTypeId == Some(target) then None
                                          else existing.value.originalShiftTypeId
    // without the swap flag the original is only carried over or cleared
    ensures !isChange ==> r.originalShiftTypeId == if existing.None? || existing.value.originalShiftTypeId == Some(target) then None
                                                   else existing.value.originalShiftTypeId
    ensures r.observations == if observations.Some? || existing.None? then observations else existing.value.observations
  {
    var carried := if existing.Some? then existing.value.originalShiftTypeId else None;
    var swapped :=
      if isChange && existing.Some? && existing.value.shiftTypeId != target && !Truthy(carried)
      then Some(existing.value.shiftTypeId)
      else carried;
    var original := if swapped == Some(target) then None else swapped;
    var note := if observations.Some? || existing.None? then observations else existing.value.observations;
    Assignment(userId, date, target, original, note)
  }

  /** What the store keeps under `key`: a row for that key, with valid ids that resolve, and no original equal to its shift. */
  predicate StoredWellFormed(key: Key, a: Assignment, catalog: map<ShiftTypeId, ShiftType>) {
    && a.userId == key.0 && a.date == key.1 && IsIsoDate(a.date)
    && IsCuid(a.shiftTypeId) && a.shiftTypeId in catalog
    && (a.originalShiftTypeId.Some? ==> IsCuid(a.originalShiftTypeId.value) && a.originalShiftTypeId.value in catalog)
    && a.originalShiftTypeId != Some(a.shiftTypeId)
  }

  /**
   * Assigning the same shift twice without the swap flag leaves the store as
   * assigning it once.
   */
  lemma AssignSameShiftTwice(records: map<Key, Assignment>, userId: UserId, date: Date, target: ShiftTypeId,
                             observations: Option<string>)
    ensures var key := (userId, date);
            var once := records[key := Reconciled(Lookup(records, key), userId, date, target, false, observations)];
            once[key := Reconciled(Lookup(once, key), userId, date, target, false, observations)] == once
  {
  }

  /** Unassigning a day and assigning it again yields a fresh row without an original. */
  lemma UnassignThenAssign(records: map<Key, Assignment>, userId: UserId, date: Date, target: ShiftTypeId,
                           isChange: bool, observations: Option<string>)
    ensures var key := (userId, date);
            Reconciled(Lookup(records - {key}, key), userId, date, target, isChange, observations).originalShiftTypeId.None?
  {
  }

  /**
   * The swap scenario: with baseline `a`, a swap to `b` records `a`; a later swap
   * to `c` keeps `a`; a swap back to `a` clears it.
   */
  lemma SwapScenario(userId: UserId, date: Date, a: ShiftTypeId, b: ShiftTypeId, c: ShiftTypeId)
    requires IsCuid(a) && a != b && a != c
    ensures var base := Reconciled(None, userId, date, a, false, None);
            var first := Reconciled(Some(base), userId, date, b, true, None);
            && base.originalShiftTypeId.None?
            && first.originalShiftTypeId == Some(a)
            && Reconciled(Some(first), userId, date, c, true, None).originalShiftTypeId == Some(a)
            && Reconciled(Some(first), userId, date, a, true, None).originalShiftTypeId.None?
  {
  }

  /** The assignment table: at most one row per (userId, date), because it is keyed by that pair. */
  class AssignmentStore {
    var records: map<Key, Assignment>
    /** The shift-type table, by id, as the `include` of both relations and the foreign keys see it. */
    const catalog: map<ShiftTypeId, ShiftType>

    ghost predicate Valid()
      reads this
    {
      forall k | k in records :: StoredWellFormed(k, records[k], catalog)
    }

    constructor (catalog: map<ShiftTypeId, ShiftType>)
      ensures Valid() && this.catalog == catalog && records == map[]
    {
      this.catalog := catalog;
      records := map[];
    }

    /** The row with its shift type and original shift type included. */
    function Resolve(a: Assignment): AssignmentRow
      requires a.shiftTypeId in catalog
      requires a.originalShiftTypeId.Some? ==> a.originalShiftTypeId.value in catalog
    {
      AssignmentRow(a, catalog[a.shiftTypeId],
                    if a.originalShiftTypeId.Some? then Some(catalog[a.originalShiftTypeId.value]) else None)
    }

    /**
     * `assignShift`. A rejected request, and an upsert that names a shift type
     * the table does not hold, change nothing. A null shift type deletes the
     * row of (userId, date) and returns it, or returns null when there was none.
     * Otherwise the row becomes the reconciled one and is returned; rows of
     * other keys do not change.
     */
    method AssignShift(session: Option<UserId>, req: AssignRequest) returns (res: Result<Option<AssignmentRow>>)
      requires Valid()
      modifies this
      ensures Valid()
      ensures Rejection(session, req).Some? ==> res == Failure(Rejection(session, req).value) && records == old(records)
      ensures Rejection(session, req).None? && req.shiftTypeId.None? ==>
                var key := (req.userId, req.date);
                && records == old(records) - {key}
                && res == Success(if key in old(records) then Some(Resolve(old(records)[key])) else None)
      ensures Rejection(session, req).None? && req.shiftTypeId.Some? && req.shiftTypeId.value !in catalog ==>
                res == Failure(StoreFailure) && records == old(records)
      ensures Rejection(session, req).None? && req.shiftTypeId.Some? && req.shiftTypeId.value in catalog ==>
                var key := (req.userId, req.date);
                var row := Reconciled(Lookup(old(records), key), req.userId, req.date, req.shiftTypeId.value,
                                      req.isChange, req.observations);
                && records == old(records)[key := row]
                && res == Success(Some(Resolve(row)))
    {
      if !Truthy(session) || session.value != req.userId {
        return Failure(NotAuthenticated);
      }
      if !ValidRequest(req) {
        return Failure(InvalidData);
      }
      var key := (req.userId, req.date);
      if req.shiftTypeId.None? {
        if key in records {
          var deleted := records[key];
          records := records - {key};
          res := Success(Some(Resolve(deleted)));
        } else {
          // the delete throws on a missing row and the catch turns that into null
          res := Success(None);
        }
        return;
      }
      var target := req.shiftTypeId.value;
      var existing := Lookup(records, key);
      var originalShiftTypeId := if existing.Some? then existing.value.originalShiftTypeId else None;
      if req.isChange && existing.Some? && existing.value.shiftTypeId != target {
        if !Truthy(originalShiftTypeId) {
          originalShiftTypeId := Some(existing.value.shiftTypeId);
        }
      }
      if originalShiftTypeId == Some(target) {
        originalShiftTypeId := None;
      }
      if target !in catalog {
        // the upsert violates the foreign key and the catch reports it
        return Failure(StoreFailure);
      }
      var observations :=
        if req.observations.Some? || existing.None? then req.observations else existing.value.observations;
      var row := Assignment(req.userId, req.date, target, originalShiftTypeId, observations);
      records := records[key := row];
      res := Success(Some(Resolve(row)));
    }

    /**
     * `getMonthAssignments`: the user's rows dated from day 1 (month index
     * `month - 1`) through day 0 of the next month index, with relations included.
     */
    function MonthAssignments(date: Date, userId: UserId): (r: set<AssignmentRow>)
      reads this
      requires Valid()
      requires 1 <= date.month <= 12
      ensures forall row | row in r ::
                && row.record.userId == userId
                && row.record.date.year == date.year && row.record.date.month == date.month
                && (userId, row.record.date) in records
                && row == Resolve(records[(userId, row.record.date)])
      ensures forall k | k in records && k.0 == userId && k.1.year == date.year && k.1.month == date.month ::
                Resolve(records[k]) in r
    {
      var start := NewDate(date.year, date.month - 1, 1);
      var end := NewDate(date.year, date.month, 0);
      StartOfMonth(date.year, date.month);
      EndOfMonth(date.year, date.month);
      assert forall k | k in records ::
        (DateLe(start, k.1) && DateLe(k.1, end) <==> k.1.year == date.year && k.1.month == date.month) by {
        forall k | k in records
          ensures DateLe(start, k.1) && DateLe(k.1, end) <==> k.1.year == date.year && k.1.month == date.month
        {
          InMonthRange(k.1, date.year, date.month);
        }
      }
      set k | k in records && k.0 == userId && DateLe(start, k.1) && DateLe(k.1, end) :: Resolve(records[k])
    }
  }
}

=== FILE: calendar_view.dfy ===
/**
 * The calendar component: the month grid (padding before the 1st and the list
 * of days), the local list of assignments it keeps in step with the server
 * action, the total of hours, the "changed" mark and the popover state.
 */
module CalendarView {
  import opened Wrappers
  import opened Dates
  import opened Records
  import opened Assignments

  /** Weeks start on Monday. */
  const WeekStartsOn := 1

  /** The grid column of a day under the header Lun, Mar, ..., Dom: Monday is 0, Sunday is 6. */
  function MondayFirstColumn(d: Date): (c: int)
    requires 1 <= d.month <= 12
    ensures 0 <= c < 7
  {
    var w := Weekday(d);
    if w == 0 then 6 else w - 1
  }

  /** `paddingDays`: the blank cells drawn before the 1st of the month. */
  function PaddingDays(year: int, month: int): (p: int)
    requires 1 <= month <= 12
    ensures 0 <= p <= 6
    ensures p == MondayFirstColumn(Date(year, month, 1))
  {
    (Weekday(Date(year, month, 1)) - WeekStartsOn + 7) % 7
  }

  /**
   * After the padding, the cell of every day of the month falls in the column
   * of that day's weekday, so the 1st and every later day sit under the right
   * header.
   */
  lemma {:induction false} GridColumnIsWeekday(year: int, month: int, day: int)
    requires 1 <= month <= 12 && 1 <= day <= DaysInMonth(year, month)
    ensures (PaddingDays(year, month) + day - 1) % 7 == MondayFirstColumn(Date(year, month, day))
  {
    var n1 := DayNumber(Date(year, month, 1));
    assert DayNumber(Date(year, month, day)) == n1 + day - 1;
    var w1 := (n1 + 4) % 7;
    var p := PaddingDays(year, month);
    assert p == (w1 + 6) % 7;
    ModSevenShift(w1 + 6, day - 1);
    ModSevenShift(n1 + 4, 6 + day - 1);
    ModSevenShift(n1 + 4 + day - 1, 6);
    assert (p + day - 1) % 7 == ((n1 + 4 + day - 1) % 7 + 6) % 7;
  }

  /** `days`: every day of the displayed month, from the 1st to the last, in order. */
  function MonthDays(year: int, month: int): (days: seq<Date>)
    requires 1 <= month <= 12
    ensures |days| == DaysInMonth(year, month)
    ensures days[0] == Date(year, month, 1) && days[|days| - 1] == Date(year, month, DaysInMonth(year, month))
    ensures forall i | 0 <= i < |days| :: ValidDate(days[i]) && days[i].year == year && days[i].month == month
    ensures forall i, j | 0 <= i < j < |days| :: DateLt(days[i], days[j])
    ensures forall d | ValidDate(d) && d.year == year && d.month == month :: d in days
  {
    var n := DaysInMonth(year, month);
    var days := seq(n, i requires 0 <= i < n => Date(year, month, i + 1));
    assert forall d | ValidDate(d) && d.year == year && d.month == month :: days[d.day - 1] == d;
    days
  }

  /** `isSameDay` on the listed assignments. */
  predicate OnDay(row: AssignmentRow, day: Date) {
    row.record.date == day
  }

  /** `prev.filter(a => !isSameDay(a.date, date))`. */
  function WithoutDay(list: seq<AssignmentRow>, day: Date): (r: seq<AssignmentRow>)
    ensures forall row :: row in r <==> row in list && !OnDay(row, day)
    ensures |r| <= |list|
  {
    if list == [] then []
    else (if OnDay(list[0], day) then [] else [list[0]]) + WithoutDay(list[1..], day)
  }

  /** The listed entries of one day, in list order: the reference for what the grid shows on that day. */
  function DayEntries(list: seq<AssignmentRow>, day: Date): seq<AssignmentRow> {
    if list == [] then []
    else (if OnDay(list[0], day) then [list[0]] else []) + DayEntries(list[1..], day)
  }

  lemma {:induction false} DayEntriesAppend(a: seq<AssignmentRow>, b: seq<AssignmentRow>, day: Date)
    ensures DayEntries(a + b, day) == DayEntries(a, day) + DayEntries(b, day)
  {
    if a != [] {
      assert (a + b)[1..] == a[1..] + b;
      DayEntriesAppend(a[1..], b, day);
    } else {
      assert a + b == b;
    }
  }

  /** Filtering a day out empties that day and leaves every other day's entries as they were. */
  lemma {:induction false} DayEntriesWithoutDay(list: seq<AssignmentRow>, day: Date, d: Date)
    ensures DayEntries(WithoutDay(list, day), d) == if d == day then [] else DayEntries(list, d)
  {
    if list != [] {
      DayEntriesWithoutDay(list[1..], day, d);
      var head := if OnDay(list[0], day) then [] else [list[0]];
      DayEntriesAppend(head, WithoutDay(list[1..], day), d);
    }
  }

  /** `[...filtered, result.data]`: the list without the day's entries, then the returned row. */
  function ReplaceDay(list: seq<AssignmentRow>, day: Date, row: AssignmentRow): (r: seq<AssignmentRow>)
    ensures OnDay(row, day) ==> DayEntries(r, day) == [row]
    ensures forall x :: x in r <==> x == row || (x in list && !OnDay(x, day))
  {
    DayEntriesAppend(WithoutDay(list, day), [row], day);
    DayEntriesWithoutDay(list, day, day);
    WithoutDay(list, day) + [row]
  }

  /** Replacing one day's entries leaves the entries of every other day as they were. */
  lemma ReplaceDayKeepsOtherDays(list: seq<AssignmentRow>, day: Date, row: AssignmentRow, d: Date)
    requires OnDay(row, day) && d != day
    ensures DayEntries(ReplaceDay(list, day, row), d) == DayEntries(list, d)
  {
    DayEntriesAppend(WithoutDay(list, day), [row], d);
    DayEntriesWithoutDay(list, day, d);
  }

  /** `totalHours`: the sum of the listed assignments' shift-type hours. */
  function TotalHours(list: seq<AssignmentRow>): (total: int)
    ensures (forall i | 0 <= i < |list| :: list[i].shiftType.hours >= 0) ==> total >= 0
  {
    if list == [] then 0 else list[0].shiftType.hours + TotalHours(list[1..])
  }

  lemma {:induction false} TotalHoursAppend(a: seq<AssignmentRow>, b: seq<AssignmentRow>)
    ensures TotalHours(a + b) == TotalHours(a) + TotalHours(b)
  {
    if a != [] {
      assert (a + b)[1..] == a[1..] + b;
      TotalHoursAppend(a[1..], b);
    } else {
      assert a + b == b;
    }
  }

  /** The total splits into the hours of one day and the hours of all other days. */
  lemma {:induction false} TotalHoursByDay(list: seq<AssignmentRow>, day: Date)
    ensures TotalHours(list) == TotalHours(WithoutDay(list, day)) + TotalHours(DayEntries(list, day))
  {
    if list != [] {
      TotalHoursByDay(list[1..], day);
      if OnDay(list[0], day) {
        assert WithoutDay(list, day) == WithoutDay(list[1..], day);
        TotalHoursAppend([list[0]], DayEntries(list[1..], day));
      } else {
        assert DayEntries(list, day) == DayEntries(list[1..], day);
        TotalHoursAppend([list[0]], WithoutDay(list[1..], day));
      }
    }
  }

  /** After replacing a day's entries the total drops their hours and adds the new row's. */
  lemma TotalHoursAfterReplace(list: seq<AssignmentRow>, day: Date, row: AssignmentRow)
    ensures TotalHours(ReplaceDay(list, day, row)) == TotalHours(list) - TotalHours(DayEntries(list, day)) + row.shiftType.hours
  {
    TotalHoursByDay(list, day);
    TotalHoursAppend(WithoutDay(list, day), [row]);
  }

  /** `assignments.find(a => isSameDay(a.date, day))`: the first entry of that day. */
  function FindDay(list: seq<AssignmentRow>, day: Date): (r: Option<AssignmentRow>)
    ensures r == if DayEntries(list, day) == [] then None else Some(DayEntries(list, day)[0])
  {
    if list == [] then None
    else if OnDay(list[0], day) then Some(list[0])
    else FindDay(list[1..], day)
  }

  /** `isShiftChanged`: the day's assignment records an original id that differs from its shift id. */
  predicate IsShiftChanged(a: Option<AssignmentRow>) {
    a.Some? && Truthy(a.value.record.originalShiftTypeId)
    && a.value.record.shiftTypeId != a.value.record.originalShiftTypeId.value
  }

  /**
   * For a row the store can hold, the "changed" mark is shown exactly when an
   * original is recorded, which is also what opening its popover sets the swap
   * flag to.
   */
  lemma ChangedMarkIffOriginal(key: Key, row: AssignmentRow, catalog: map<ShiftTypeId, ShiftType>)
    requires StoredWellFormed(key, row.record, catalog)
    ensures IsShiftChanged(Some(row)) <==> row.record.originalShiftTypeId.Some?
    ensures IsShiftChanged(Some(row)) <==> Truthy(row.record.originalShiftTypeId)
  {
  }

  /** The calendar component's state. */
  class CalendarState {
    const userId: UserId
    var assignments: seq<AssignmentRow>
    var isLoading: bool
    /** The day whose popover is open (`openPopoverId` holds that day as a string). */
    var openPopover: Option<Date>
    var isChange: bool
    var observations: string

    constructor (userId: UserId, initialAssignments: seq<AssignmentRow>)
      ensures this.userId == userId && assignments == initialAssignments
      ensures !isLoading && openPopover.None? && !isChange && observations == ""
    {
      this.userId := userId;
      assignments := initialAssignments;
      isLoading := false;
      openPopover := None;
      isChange := false;
      observations := "";
    }

    /**
     * `handleAssignShift`: calls `assignShift` with the component's swap flag and
     * note. On an error the list is unchanged; after an unassign the day has no
     * entry; after an assign the day's only entry is the returned row. Other days
     * keep their entries, and in every outcome the flag, the note and the popover
     * are reset.
     */
    method HandleAssignShift(store: AssignmentStore, session: Option<UserId>, day: Date, shiftTypeId: Option<ShiftTypeId>)
      returns (res: Result<Option<AssignmentRow>>)
      requires store.Valid()
      modifies this, store
      ensures store.Valid()
      ensures var req := AssignRequest(day, shiftTypeId, userId, old(isChange), Some(old(observations)));
              res.Failure? <==> Rejection(session, req).Some? || (shiftTypeId.Some? && shiftTypeId.value !in store.catalog)
      ensures res.Failure? ==> assignments == old(assignments) && store.records == old(store.records)
      ensures res.Success? && shiftTypeId.None? ==>
                && store.records == old(store.records) - {(userId, day)}
                && assignments == WithoutDay(old(assignments), day) && DayEntries(assignments, day) == []
      ensures res.Success? && shiftTypeId.Some? ==>
                var row := Reconciled(Lookup(old(store.records), (userId, day)), userId, day, shiftTypeId.value,
                                      old(isChange), Some(old(observations)));
                && store.records == old(store.records)[(userId, day) := row]
                && res.value == Some(store.Resolve(row))
      ensures res.Success? && shiftTypeId.Some? ==>
                && res.value.Some? && OnDay(res.value.value, day)
                && res.value.value.record.shiftTypeId == shiftTypeId.value
                && assignments == ReplaceDay(old(assignments), day, res.value.value)
                && DayEntries(assignments, day) == [res.value.value]
      ensures forall d | d != day :: DayEntries(assignments, d) == DayEntries(old(assignments), d)
      ensures !isLoading && openPopover.None? && !isChange && observations == ""
    {
      isLoading := true;
      var req := AssignRequest(day, shiftTypeId, userId, isChange, Some(observations));
      res := store.AssignShift(session, req);
      if res.Success? {
        if shiftTypeId.None? {
          assignments := WithoutDay(assignments, day);
          DayEntriesWithoutDay(old(assignments), day, day);
        } else if res.value.Some? {
          assignments := ReplaceDay(assignments, day, res.value.value);
        }
      }
      forall d | d != day
        ensures DayEntries(assignments, d) == DayEntries(old(assignments), d)
      {
        if res.Success? && shiftTypeId.None? {
          DayEntriesWithoutDay(old(assignments), day, d);
        } else if res.Success? {
          ReplaceDayKeepsOtherDays(old(assignments), day, res.value.value, d);
        }
      }
      isLoading := false;
      openPopover := None;
      isChange := false;
      observations := "";
    }

    /**
     * `handlePopoverOpenChange`: opening a day's popover loads its note (or '')
     * and sets the swap flag to whether its first listed entry records an
     * original; closing only clears the open popover.
     */
    method HandlePopoverOpenChange(isOpen: bool, day: Date)
      modifies this
      ensures openPopover == if isOpen then Some(day) else None
      ensures isOpen ==>
                var a := FindDay(assignments, day);
                && observations == (if a.Some? && a.value.record.observations.Some? then a.value.record.observations.value else "")
                && isChange == (a.Some? && Truthy(a.value.record.originalShiftTypeId))
      ensures !isOpen ==> observations == old(observations) && isChange == old(isChange)
      ensures assignments == old(assignments) && isLoading == old(isLoading)
    {
      openPopover := if isOpen then Some(day) else None;
      if isOpen {
        var assignment := FindDay(assignments, day);
        observations :=
          if assignment.Some? && assignment.value.record.observations.Some? then assignment.value.record.observations.value
          else "";
        isChange := assignment.Some? && Truthy(assignment.value.record.originalShiftTypeId);
      }
    }
  }
}

=== FILE: dates.dfy ===
/**
 * Calendar days of the proleptic Gregorian calendar, as the application sees them:
 * a stored assignment date is a day, the calendar grid shows the days of one month,
 * and the month read builds its range with JavaScript's `new Date(year, monthIndex, day)`.
 */
module Dates {

  /** A calendar day; `month` is 1-based (JavaScript's `getMonth()` plus one). */
  datatype Date = Date(year: int, month: int, day: int)

  predicate IsLeapYear(year: int) {
    year % 4 == 0 && (year % 100 != 0 || year % 400 == 0)
  }

  function DaysInMonth(year: int, month: int): (n: int)
    requires 1 <= month <= 12
    ensures 28 <= n <= 31
  {
    if month == 2 then (if IsLeapYear(year) then 29 else 28)
    else if month == 4 || month == 6 || month == 9 || month == 11 then 30
    else 31
  }

  predicate ValidDate(d: Date) {
    1 <= d.month <= 12 && 1 <= d.day <= DaysInMonth(d.year, d.month)
  }

  /** Chronological order of calendar days. */
  predicate DateLe(a: Date, b: Date) {
    a.year < b.year || (a.year == b.year && (a.month < b.month || (a.month == b.month && a.day <= b.day)))
  }

  predicate DateLt(a: Date, b: Date) {
    DateLe(a, b) && a != b
  }

  /**
   * Days from 0000-03-01 to the 1 March that starts counting year `y`: 365 a
   * year plus the leap days. Division by positive constants is floor division,
   * as the count needs, for every year.
   */
  function YearStart(y: int): int {
    365 * y + y / 4 - y / 100 + y / 400
  }

  /** Days from 1 March to the 1st of the month `mp` months later (March is 0, February is 11). */
  function MonthStart(mp: int): int
    requires 0 <= mp < 12
  {
    [0, 31, 61, 92, 122, 153, 184, 214, 245, 275, 306, 337][mp]
  }

  /**
   * The number of days from 1970-01-01 to `d` (negative before it). Years are
   * counted from 1 March so that a leap day is the last day of its counting year.
   */
  function DayNumber(d: Date): int
    requires 1 <= d.month <= 12
  {
    var y := if d.month <= 2 then d.year - 1 else d.year;
    var mp := if d.month > 2 then d.month - 3 else d.month + 9;
    YearStart(y) + MonthStart(mp) + d.day - 1 - 719468
  }

  /** The first day of the month that follows `month` of `year`. */
  function FirstOfNextMonth(year: int, month: int): (r: Date)
    requires 1 <= month <= 12
    ensures ValidDate(r) && r.day == 1
  {
    if month == 12 then Date(year + 1, 1, 1) else Date(year, month + 1, 1)
  }

  /** Stepping the year by one moves a floor quotient by `n` exactly when the year is a multiple of `n`. */
  lemma FloorStep(y: int, n: int)
    requires n == 4 || n == 100 || n == 400
    ensures y / n - (y - 1) / n == if y % n == 0 then 1 else 0
  {
    if n == 4 {
      assert y / 4 - (y - 1) / 4 == if y % 4 == 0 then 1 else 0;
    } else if n == 100 {
      assert y / 100 - (y - 1) / 100 == if y % 100 == 0 then 1 else 0;
    } else {
      assert y / 400 - (y - 1) / 400 == if y % 400 == 0 then 1 else 0;
    }
  }

  lemma Multiple400Is100(y: int)
    requires y % 400 == 0
    ensures y % 100 == 0
  {
    assert y == 100 * (4 * (y / 400));
  }

  lemma Multiple100Is4(y: int)
    requires y % 100 == 0
    ensures y % 4 == 0
  {
    assert y == 4 * (25 * (y / 100));
  }

  /** The counting year that ends with February of `year` has 366 days exactly when `year` is a leap year. */
  lemma CountingYearLength(year: int)
    ensures YearStart(year) - YearStart(year - 1) == if IsLeapYear(year) then 366 else 365
  {
    FloorStep(year, 4);
    FloorStep(year, 100);
    FloorStep(year, 400);
    if year % 400 == 0 {
      Multiple400Is100(year);
      Multiple100Is4(year);
    } else if year % 100 == 0 {
      Multiple100Is4(year);
    }
  }

  /**
   * DayNumber agrees with DaysInMonth: the day after the last day of a month is
   * the first day of the next month, across December and across February in
   * leap and common years.
   */
  lemma {:induction false} MonthEndIsFollowedByNextMonth(year: int, month: int)
    requires 1 <= month <= 12
    ensures DayNumber(FirstOfNextMonth(year, month)) == DayNumber(Date(year, month, DaysInMonth(year, month))) + 1
  {
    if month == 2 {
      CountingYearLength(year);
    }
  }

  /** The weekday of `d` as JavaScript's `getDay` numbers it: 0 is Sunday, 6 is Saturday (1970-01-01 was a Thursday). */
  function Weekday(d: Date): (w: int)
    requires 1 <= d.month <= 12
    ensures 0 <= w < 7
  {
    (DayNumber(d) + 4) % 7
  }

  lemma ModSevenShift(a: int, b: int)
    ensures (a % 7 + b) % 7 == (a + b) % 7
  {
    var q := a / 7;
    assert a == 7 * q + a % 7;
    assert (a % 7 + b) + 7 * q == a + b;
    assert ((a % 7 + b) + 7 * q) % 7 == (a % 7 + b) % 7;
  }

  /** The calendar day after `d`. */
  function NextDay(d: Date): (r: Date)
    requires ValidDate(d)
    ensures ValidDate(r) && DateLt(d, r)
    ensures DayNumber(r) == DayNumber(d) + 1
  {
    if d.day < DaysInMonth(d.year, d.month) then Date(d.year, d.month, d.day + 1)
    else
      MonthEndIsFollowedByNextMonth(d.year, d.month);
      FirstOfNextMonth(d.year, d.month)
  }

  /**
   * Weekday numbers the days as `getDay` does: 1970-01-01 is a Thursday (4),
   * and each next day moves one weekday on, Saturday (6) wrapping to Sunday (0).
   */
  lemma {:induction false} WeekdayLikeGetDay(d: Date)
    requires ValidDate(d)
    ensures Weekday(Date(1970, 1, 1)) == 4
    ensures Weekday(NextDay(d)) == (Weekday(d) + 1) % 7
  {
    ModSevenShift(DayNumber(d) + 4, 1);
  }

  /**
   * JavaScript's `new Date(year, monthIndex, day)` on calendar days: the 0-based
   * month index carries into the year, and day 0 names the last day of the
   * month before. Only days 0..28 are modelled, which includes the 0 and 1 the
   * month read passes.
   */
  function NewDate(year: int, monthIndex: int, day: int): (r: Date)
    requires 0 <= day <= 28
    ensures ValidDate(r)
    ensures DayNumber(r) == DayNumber(Date(year + monthIndex / 12, monthIndex % 12 + 1, 1)) + day - 1
  {
    var y := year + monthIndex / 12;
    var m := monthIndex % 12 + 1;
    if day >= 1 then
      Date(y, m, day)
    else if m == 1 then
      MonthEndIsFollowedByNextMonth(y - 1, 12);
      Date(y - 1, 12, DaysInMonth(y - 1, 12))
    else
      MonthEndIsFollowedByNextMonth(y, m - 1);
      Date(y, m - 1, DaysInMonth(y, m - 1))
  }

  /** Day 1 of month index `month - 1` is the first day of `month`. */
  lemma StartOfMonth(year: int, month: int)
    requires 1 <= month <= 12
    ensures NewDate(year, month - 1, 1) == Date(year, month, 1)
  {
  }

  /**
   * Day 0 of the following month index is the last day of `month`, so December
   * ends on the 31st of the same year and February on the 28th or, in a leap
   * year, the 29th.
   */
  lemma EndOfMonth(year: int, month: int)
    requires 1 <= month <= 12
    ensures NewDate(year, month, 0) == Date(year, month, DaysInMonth(year, month))
    ensures month == 12 ==> NewDate(year, month, 0) == Date(year, 12, 31)
    ensures month == 2 ==> NewDate(year, month, 0).day == if IsLeapYear(year) then 29 else 28
  {
  }

  /**
   * A valid day lies between the first and the last day of a month exactly when
   * it belongs to that month: both ends are included and the adjacent months'
   * days are excluded.
   */
  lemma {:induction false} InMonthRange(d: Date, year: int, month: int)
    requires ValidDate(d) && 1 <= month <= 12
    ensures DateLe(Date(year, month, 1), d) && DateLe(d, Date(year, month, DaysInMonth(year, month)))
            <==> d.year == year && d.month == month
  {
  }
}

=== FILE: initials.dfy ===
/**
 * The avatar fallback of the user dropdown: `getInitials` splits the name on
 * spaces, takes each piece's first character, keeps the first two and
 * upper-cases them.
 */
module UserDropdown {
  import opened Wrappers

  /** JavaScript's `s.split(sep)` for a one-character separator: the pieces between separators, empty ones included. */
  function Split(s: string, sep: char): (parts: seq<string>)
    ensures |parts| >= 1
    ensures forall i | 0 <= i < |parts| :: sep !in parts[i]
    decreases |s|
  {
    if s == [] then [""]
    else
      var rest := Split(s[1..], sep);
      if s[0] == sep then [""] + rest
      else [[s[0]] + rest[0]] + rest[1..]
  }

  /** JavaScript's `parts.join(sep)` for a one-character separator. */
  function Join(parts: seq<string>, sep: char): string
    requires |parts| >= 1
  {
    if |parts| == 1 then parts[0] else parts[0] + [sep] + Join(parts[1..], sep)
  }

  /** Splitting loses nothing: joining the pieces with the separator gives the string back. */
  lemma {:induction false} JoinSplit(s: string, sep: char)
    ensures Join(Split(s, sep), sep) == s
    decreases |s|
  {
    if s != [] {
      var rest := Split(s[1..], sep);
      JoinSplit(s[1..], sep);
      if s[0] == sep {
        assert ([""] + rest)[1..] == rest;
      } else {
        var parts := [[s[0]] + rest[0]] + rest[1..];
        if |rest| > 1 {
          assert parts[1..] == rest[1..];
        }
      }
    }
  }

  /**
   * `parts.map(n => n[0]).join('')`: the first character of each piece; an
   * empty piece gives `undefined`, which `join` writes as nothing.
   */
  function Heads(parts: seq<string>): string {
    if parts == [] then []
    else (if parts[0] == [] then [] else [parts[0][0]]) + Heads(parts[1..])
  }

  /**
   * The reference reading of "first letters of the words": each character that
   * is not a space and comes first or right after a space. `atWordStart` says
   * whether the character before `s` was a space (or there was none).
   */
  function WordStarts(s: string, atWordStart: bool): string
    decreases |s|
  {
    if s == [] then []
    else (if s[0] != ' ' && atWordStart then [s[0]] else []) + WordStarts(s[1..], s[0] == ' ')
  }

  /** The first characters of the space-separated pieces are exactly the word starts, in order. */
  lemma {:induction false} HeadsAreWordStarts(s: string)
    ensures Heads(Split(s, ' ')) == WordStarts(s, true)
    ensures Heads(Split(s, ' ')[1..]) == WordStarts(s, false)
    decreases |s|
  {
    if s != [] {
      var rest := Split(s[1..], ' ');
      HeadsAreWordStarts(s[1..]);
      if s[0] == ' ' {
        var parts := [""] + rest;
        assert parts[1..] == rest;
        assert Heads(parts) == Heads(rest);
      } else {
        var parts := [[s[0]] + rest[0]] + rest[1..];
        assert parts[1..] == rest[1..];
        assert Heads(parts) == [s[0]] + Heads(rest[1..]);
      }
    }
  }

  /** A string without spaces has no word start after its first character. */
  lemma {:induction false} NoSpaceNoLaterStart(s: string)
    ensures ' ' !in s ==> WordStarts(s, false) == []
    decreases |s|
  {
    if s != [] {
      NoSpaceNoLaterStart(s[1..]);
    }
  }

  /** A string of spaces only has no word start at all. */
  lemma {:induction false} SpacesHaveNoStart(s: string, atWordStart: bool)
    ensures (forall i | 0 <= i < |s| :: s[i] == ' ') ==> WordStarts(s, atWordStart) == []
    decreases |s|
  {
    if s != [] {
      SpacesHaveNoStart(s[1..], true);
    }
  }

  /** `substring(0, 2)`: the first two characters, or all of a shorter string. */
  function Take2(s: string): (r: string)
    ensures |r| <= 2 && r <= s
    ensures |r| == if |s| < 2 then |s| else 2
  {
    if |s| < 2 then s else s[..2]
  }

  /**
   * `toUpperCase` on one character, for the Basic Latin and Latin-1 blocks:
   * 'a'..'z' and 'à'..'þ' except '÷' move up by 32, 'µ' becomes the Greek
   * capital mu and 'ÿ' becomes 'Ÿ'; every other character is unchanged.
   */
  function UpperChar(c: char): char {
    if 'a' <= c <= 'z' || ('à' <= c <= 'þ' && c != '÷') then (c as int - 32) as char
    else if c == 'µ' then 'Μ'
    else if c == 'ÿ' then 'Ÿ'
    else c
  }

  /** `toUpperCase`, character by character. */
  function ToUpper(s: string): string {
    seq(|s|, i requires 0 <= i < |s| => UpperChar(s[i]))
  }

  /** Upper-casing an upper-cased string changes nothing. */
  lemma UpperCaseIsIdempotent(s: string)
    ensures ToUpper(ToUpper(s)) == ToUpper(s)
  {
    forall i | 0 <= i < |s|
      ensures ToUpper(ToUpper(s))[i] == ToUpper(s)[i]
    {
      var c := s[i];
      if 'a' <= c <= 'z' || ('à' <= c <= 'þ' && c != '÷') {
        assert !('a' <= (c as int - 32) as char <= 'z');
      }
    }
  }

  /**
   * `getInitials`. A missing or empty name gives "U"; otherwise the result is
   * the upper-cased first characters of the first two words, so it never has
   * more than two characters, a one-word name gives its upper-cased first
   * letter and a name of spaces only gives "".
   */
  function Initials(name: Option<string>): (r: string)
    ensures name.None? || name.value == "" ==> r == "U"
    ensures |r| <= 2
    ensures name.Some? && name.value != "" ==> r == ToUpper(Take2(WordStarts(name.value, true)))
    ensures name.Some? && name.value != "" && ' ' !in name.value ==> r == [UpperChar(name.value[0])]
    ensures name.Some? && (forall i | 0 <= i < |name.value| :: name.value[i] == ' ') && name.value != "" ==> r == ""
  {
    if name.None? || name.value == "" then "U"
    else
      var s := name.value;
      HeadsAreWordStarts(s);
      NoSpaceNoLaterStart(s[1..]);
      SpacesHaveNoStart(s, true);
      ToUpper(Take2(Heads(Split(s, ' '))))
  }

  /** The initials are already upper case: upper-casing them again changes nothing. */
  lemma InitialsAreUpperCase(name: Option<string>)
    ensures ToUpper(Initials(name)) == Initials(name)
  {
    if name.Some? && name.value != "" {
      UpperCaseIsIdempotent(Take2(WordStarts(name.value, true)));
    } else {
      assert ToUpper("U")[0] == 'U';
    }
  }
}

=== FILE: records.dfy ===
/**
 * The rows the server actions read and write, the identifiers and the tagged
 * results they return to the calendar.
 */
module Records {
  import opened Wrappers
  import opened Dates

  type UserId = string
  type ShiftTypeId = string

  /** A shift type row: its id, display name and hour count. */
  datatype ShiftType = ShiftType(id: ShiftTypeId, name: string, hours: int)

  /**
   * A shift assignment row, unique per (userId, date): the current shift type,
   * the shift type it replaced in a swap, if any, and an optional note.
   */
  datatype Assignment = Assignment(
    userId: UserId,
    date: Date,
    shiftTypeId: ShiftTypeId,
    originalShiftTypeId: Option<ShiftTypeId>,
    observations: Option<string>)

  /** An assignment with its `shiftType` and `originalShiftType` relations included. */
  datatype AssignmentRow = AssignmentRow(
    record: Assignment,
    shiftType: ShiftType,
    originalShiftType: Option<ShiftType>)

  /** The error messages the actions return instead of throwing. */
  datatype ActionError =
    | NotAuthenticated  // 'Not authenticated'
    | InvalidData       // 'Invalid data'
    | StoreFailure      // 'Failed to assign shift' / 'Failed to save shift types.'

  datatype Result<+T> = Success(value: T) | Failure(error: ActionError)

  /** JavaScript truthiness of an optional string: null, undefined and '' are falsy. */
  predicate Truthy(s: Option<string>) {
    s.Some? && s.value != ""
  }

  /**
   * JavaScript's `\s`: the ASCII tab, line feed, vertical tab, form feed,
   * carriage return and space, the no-break and byte-order-mark spaces, the
   * line and paragraph separators and the other Unicode space separators.
   */
  predicate IsWhitespace(c: char) {
    || c == ' ' || c == '\t' || c == '\n' || c == '\r' || c == '\U{B}' || c == '\U{C}'
    || c == '\U{A0}' || c == '\U{1680}' || ('\U{2000}' <= c <= '\U{200A}')
    || c == '\U{2028}' || c == '\U{2029}' || c == '\U{202F}' || c == '\U{205F}'
    || c == '\U{3000}' || c == '\U{FEFF}'
  }

  /** The cuid format check: a 'c' or 'C' followed by at least eight characters that are neither whitespace nor '-'. */
  predicate IsCuid(s: string) {
    |s| >= 9 && (s[0] == 'c' || s[0] == 'C') && forall i | 1 <= i < |s| :: !IsWhitespace(s[i]) && s[i] != '-'
  }

  /** A date accepted by the ISO `YYYY-MM-DD` check: a four-digit year and a real day of that month. */
  predicate IsIsoDate(d: Date) {
    0 <= d.year <= 9999 && ValidDate(d)
  }
}

=== FILE: shift_types.dfy ===
/**
 * The `saveShiftTypes` server action: replace one user's shift types with a
 * submitted batch, keyed by (userId, name), and mark the user onboarded.
 */
module ShiftTypes {
  import opened Wrappers
  import opened Records

  /**
   * One submitted entry; the optional id is accepted and ignored. `hours` is
   * the number the form sends, a finite JavaScript number: NaN and the
   * infinities are excluded by the choice of `real`, not by the schema.
   */
  datatype ShiftTypeInput = ShiftTypeInput(id: Option<string>, name: string, hours: real)

  /** The entry schema: a non-empty name and hours that are an integer of at least 0. */
  predicate ValidInput(e: ShiftTypeInput) {
    |e.name| >= 1 && e.hours.Floor as real == e.hours && e.hours >= 0.0
  }

  predicate ValidBatch(batch: seq<ShiftTypeInput>) {
    forall i | 0 <= i < |batch| :: ValidInput(batch[i])
  }

  function StoredHours(e: ShiftTypeInput): (h: nat)
    requires ValidInput(e)
    ensures h as real == e.hours
  {
    e.hours.Floor
  }

  /** The names the delete keeps: those of the batch. */
  function Names(batch: seq<ShiftTypeInput>): set<string> {
    set i | 0 <= i < |batch| :: batch[i].name
  }

  /** The hours of the last entry named `name`: the one the in-order upserts leave behind. */
  function LastHours(batch: seq<ShiftTypeInput>, name: string): nat
    requires ValidBatch(batch) && name in Names(batch)
    decreases |batch|
  {
    var last := batch[|batch| - 1];
    if last.name == name then StoredHours(last)
    else
      assert name in Names(batch[..|batch| - 1]) by {
        var i :| 0 <= i < |batch| && batch[i].name == name;
        assert batch[..|batch| - 1][i] == batch[i];
      }
      LastHours(batch[..|batch| - 1], name)
  }

  /** With duplicated names the last entry wins: LastHours is the hours of the last entry of that name. */
  lemma {:induction false} LastEntryWins(batch: seq<ShiftTypeInput>, name: string)
    requires ValidBatch(batch) && name in Names(batch)
    ensures exists j | 0 <= j < |batch| ::
              && batch[j].name == name
              && LastHours(batch, name) as real == batch[j].hours
              && forall k | j < k < |batch| :: batch[k].name != name
    decreases |batch|
  {
    var n := |batch| - 1;
    if batch[n].name == name {
      assert LastHours(batch, name) == StoredHours(batch[n]);
    } else {
      var prefix := batch[..n];
      assert name in Names(prefix) by {
        var i :| 0 <= i < |batch| && batch[i].name == name;
        assert prefix[i] == batch[i];
      }
      LastEntryWins(prefix, name);
      var j :| 0 <= j < |prefix| && prefix[j].name == name && LastHours(prefix, name) as real == prefix[j].hours
               && forall k | j < k < |prefix| :: prefix[k].name != name;
      assert LastHours(batch, name) == LastHours(prefix, name);
      assert batch[j] == prefix[j];
      forall k | j < k < |batch| ensures batch[k].name != name {
        if k < n {
          assert batch[k] == prefix[k];
        }
      }
    }
  }

  /** Appending an entry to the processed prefix: its name now has its hours, other names keep theirs. */
  lemma LastHoursStep(batch: seq<ShiftTypeInput>, i: nat, name: string)
    requires ValidBatch(batch) && i < |batch| && name in Names(batch[..i + 1])
    ensures LastHours(batch[..i + 1], name) ==
              if batch[i].name == name then StoredHours(batch[i]) else LastHours(batch[..i], name)
  {
    assert batch[..i + 1][..i] == batch[..i];
  }

  lemma NamesStep(batch: seq<ShiftTypeInput>, i: nat)
    requires i < |batch|
    ensures Names(batch[..i + 1]) == Names(batch[..i]) + {batch[i].name}
  {
    assert forall j | 0 <= j < i :: batch[..i + 1][j] == batch[..i][j];
    assert batch[..i + 1][i] == batch[i];
  }

  /**
   * The user's part of `after` is the result of deleting the names absent from
   * `batch` from `before` and upserting the first `i` entries; other users' rows
   * are those of `before`.
   */
  ghost predicate UpsertedPrefix(before: map<(UserId, string), nat>, after: map<(UserId, string), nat>,
                                 user: UserId, batch: seq<ShiftTypeInput>, i: nat)
    requires ValidBatch(batch) && i <= |batch|
  {
    && (forall k :: k in after <==>
          (k in before && (k.0 != user || k.1 in Names(batch))) || (k.0 == user && k.1 in Names(batch[..i])))
    && (forall k | k in before && k.0 != user :: after[k] == before[k])
    && (forall n | n in Names(batch[..i]) :: after[(user, n)] == LastHours(batch[..i], n))
  }

  /** Upserting entry `i` extends the processed prefix by one. */
  lemma UpsertStep(before: map<(UserId, string), nat>, after: map<(UserId, string), nat>,
                   user: UserId, batch: seq<ShiftTypeInput>, i: nat)
    requires ValidBatch(batch) && i < |batch|
    requires UpsertedPrefix(before, after, user, batch, i)
    ensures UpsertedPrefix(before, after[(user, batch[i].name) := StoredHours(batch[i])], user, batch, i + 1)
  {
    NamesStep(batch, i);
    forall n | n in Names(batch[..i + 1]) {
      LastHoursStep(batch, i, n);
    }
  }

  /** The shift-type table, as (userId, name) -> hours, and the users' onboarding flags. */
  class ShiftTypeRegistry {
    var shiftTypes: map<(UserId, string), nat>
    var onboarded: set<UserId>

    constructor ()
      ensures shiftTypes == map[] && onboarded == {}
    {
      shiftTypes := map[];
      onboarded := {};
    }

    /**
     * `saveShiftTypes`. Without a session, or with any invalid entry, nothing
     * changes. Otherwise the user's shift types are exactly the submitted names,
     * each with the hours of its last entry, the user is onboarded, and other
     * users' shift types are untouched.
     */
    method SaveShiftTypes(session: Option<UserId>, batch: seq<ShiftTypeInput>) returns (res: Result<()>)
      modifies this
      ensures !Truthy(session) ==> res == Failure(NotAuthenticated)
      ensures Truthy(session) && !ValidBatch(batch) ==> res == Failure(InvalidData)
      ensures res.Failure? ==> shiftTypes == old(shiftTypes) && onboarded == old(onboarded)
      ensures res.Success? <==> Truthy(session) && ValidBatch(batch)
      ensures res.Success? ==>
                var user := session.value;
                && (forall k :: k in shiftTypes <==> (k in old(shiftTypes) && k.0 != user) || (k.0 == user && k.1 in Names(batch)))
                && (forall k | k in old(shiftTypes) && k.0 != user :: shiftTypes[k] == old(shiftTypes)[k])
                && (forall n | n in Names(batch) :: shiftTypes[(user, n)] == LastHours(batch, n))
                && onboarded == old(onboarded) + {user}
    {
      if !Truthy(session) {
        return Failure(NotAuthenticated);
      }
      if !ValidBatch(batch) {
        return Failure(InvalidData);
      }
      var user := session.value;
      var names := Names(batch);
      // delete the user's shift types whose names the batch does not hold
      shiftTypes := map k | k in shiftTypes && (k.0 != user || k.1 in names) :: shiftTypes[k];
      assert Names(batch[..0]) == {};
      // upsert each entry, in order
      for i := 0 to |batch|
        invariant UpsertedPrefix(old(shiftTypes), shiftTypes, user, batch, i)
        invariant onboarded == old(onboarded)
      {
        UpsertStep(old(shiftTypes), shiftTypes, user, batch, i);
        shiftTypes := shiftTypes[(user, batch[i].name) := StoredHours(batch[i])];
      }
      assert batch[..|batch|] == batch;
      onboarded := onboarded + {user};
      res := Success(());
    }
  }
}

=== FILE: wrappers.dfy ===
/** The optional value used for nullable references and optional fields. */
module Wrappers {

  datatype Option<+T> = None | Some(value: T)
}
